=== FILE: README.md ===
# recordkeeper save codec — a Dafny model

A model of the typed core of recordkeeper, the library that reads and edits
save files of one game. It covers four pieces:

- `FixVec` (`util.dfy`, module `Util`): a fixed-capacity vector. It has a
  backing buffer of exactly `MAX` elements and a logical length `len` that
  the code expects to be at most `MAX` (see below). Here `MAX` is the length
  of the buffer sequence.
- The save-data header gate, the named save flags, `PlayTime` and the packed
  `SaveTimestamp` (`save.dfy`, module `Save`). The save-flag store is a
  `BitFlags` region whose code is not part of this model. `flags.dfy`
  (module `Flags`) stands in for it: a sequence of values addressed by flag
  index, with get and set.
- Inventory slots (`item.dfy`, module `Item`):
  - `ItemType` and its conversion from `u32`.
  - The 16-byte `ItemSlot` record and its flag predicates.
  - The eight per-category slot arrays.
  - `split_slots_mut`, which finds two items and hands out two mutable slot
    references that never alias.
- `wrappers.dfy` (module `Wrappers`) holds `Option`, `Result` and the `u16`
  and `u32` integer types.

Everything is immutable data and pure functions. Two parts of the source
have loops, and those are methods: `FixVec::iter` and the first-match scan
(`position`) that `split_slots_mut` uses. A mutable borrow becomes a value
that is written back. A `&mut ItemSlot` becomes a location, which is a
category plus an index. `split_at_mut` splits a view, modelled as the
sequence of locations a slice covers, into its lower and upper parts.

The source panics in several places. Where the caller can rule the panic
out beforehand, it becomes a `requires`:

- the index check of `FixVec::set`;
- the empty-slot and bad-tag checks of `ItemSlot::item_type`;
- the `expect` on the flag index of `is_flag_set`.

Where the panic depends on data, it becomes an error value of
`InventoryError`:

- `slots` called with Collectopedia;
- an item that is not found;
- the same slot requested twice in `split_slots_mut`.

`ItemType::get_by_item_id` is a `todo!()` stub, so `SplitSlotsMut` takes it
as a parameter `classify: u16 -> ItemType` and knows nothing about it.
`CRAFTED_ITEM_ID` is defined in the DLC module, which is not part of this
model, so `IsCraftedAccessory` takes it as a parameter too.

Three details of the source shape the model:

- `try_push` fails when `len >= MAX` (lib/src/util.rs:51). `FixVec`'s `len`
  is read from the file with no assertion (lib/src/util.rs:20-28), and only a
  comment says `len <= MAX` (lib/src/util.rs:60). So `Get`, `Set`,
  `TryPush`, `Len`, `IsEmpty`, `Clear`, `Capacity` and `Iter` accept any
  `len`. With an oversized `len`, `get` finds nothing past the buffer,
  `try_push` refuses, and `iter` stops at the buffer's end.
- `split_slots_mut` does not reject two equal ids before it scans
  (lib/src/save/item/mod.rs:142-143). It fails only later, when it indexes
  past the lower half of the split array.
- The magic field's assertion has no custom error (lib/src/save/mod.rs:35).
  For such an assertion the `SaveBin` derive macro (crate
  `recordkeeper_macros`) supplies a default error. That crate is not part of
  this model, so the model represents the error as `BadMagic` carrying the
  value found.

## Model

| member | source | states |
|---|---|---|
| Util.Get | lib/src/util.rs:37-42 | for any `len`: `get(i)` is `None` whenever `i >= len`, whatever the buffer holds there, and `None` whenever `i >= MAX`; otherwise it is `Some(buf[i])` |
| Util.Set | lib/src/util.rs:44-47 | `set(i, x)` requires `i < len` (the assertion) and `i < MAX` (the buffer index), for any `len`; afterwards `get(i)` is `x`, every other backing slot and `len` are unchanged, the capacity is kept, and `len <= MAX` holds after exactly when it held before |
| Util.TryPush | lib/src/util.rs:49-57 | for any `len`, fails with `CapacityError` exactly when `len >= MAX`; otherwise `x` sits at the old `len`, `len` grows by one, no other slot changes and `len <= MAX` still holds |
| Util.TryPop | lib/src/util.rs:87-95 | fails with `CapacityError` exactly when the vector is empty; otherwise it returns the old `buf[len-1]`, leaves the default value in that slot, shrinks `len` by one and changes no other slot |
| Util.Len | lib/src/util.rs:59-62 | for a vector with `len <= MAX`, `len()` is the number of elements `iter` yields; for any `len`, `get` finds nothing at or past `len()`, and below it finds exactly the indices under `MAX` |
| Util.IsEmpty | lib/src/util.rs:64-66 | when `is_empty()` holds, `get` finds nothing at any index; for a vector with `len <= MAX`, it holds exactly when the vector yields no element; with a decoded `len` above `MAX` it is false, even when `MAX` is 0 |
| Util.Clear | lib/src/util.rs:72-74 | `clear()` leaves nothing present and keeps the backing buffer exactly as it was |
| Util.Capacity | lib/src/util.rs:76-78 | `capacity()` is `MAX`, the backing buffer's length, and is at least `len()` whenever `len <= MAX` |
| Util.FixVec.Items | lib/src/util.rs:68-70 | the logical contents have `len` elements, and element `i` is what `get(i)` returns |
| Util.Iter | lib/src/util.rs:68-70 | `iter()` yields the first `len` elements of the buffer in order, or the whole buffer when `len` exceeds it. Element `i` is what `get(i)` returns |
| Util.OversizedLength | lib/src/util.rs:37-78 | for every vector with a decoded `len` above `MAX`: `get` reads the buffer below `MAX` and is `None` from `MAX` on, `try_push` fails with `CapacityError`, `len()` exceeds `capacity()`, and `is_empty()` is false |
| Util.OversizedLengthExample | lib/src/util.rs:37-78 | `len` 5 over a two-element buffer: `get(1)` is the second element, `get(3)` is `None`, `try_push` fails, `capacity()` is 2 and `len()` is 5 |
| Util.SetReplaces | lib/src/util.rs:44-47 | `set(i, x)` replaces exactly element `i` of the logical contents |
| Util.PushAppends | lib/src/util.rs:49-57 | below capacity, a push appends exactly the pushed value to the logical contents |
| Util.PopRemovesLast | lib/src/util.rs:87-95 | on a non-empty vector, a pop removes exactly the last present element and returns it |
| Util.PushPopRoundTrip | lib/src/util.rs:49-95 | push then pop returns the pushed value and restores `len` and the contents; only the vacated backing slot now holds the default |
| Util.CapacityScenario | lib/src/util.rs:49-95 | with `MAX = 4`, four pushes succeed and a fifth fails; after one pop `len` is 3 and a push succeeds again; `get` past `len` is `None` |
| Save.CheckHeader | lib/src/save/mod.rs:24-38 | the header passes only with magic `0xb368fa6a` and version 10; a wrong magic fails first, and a correct magic with another version fails with `UnsupportedVersion` carrying that version byte |
| Save.ReadSaveData | lib/src/save/mod.rs:33-38 | a save is read only when the header passes; otherwise the header's error is returned and no aggregate is produced |
| Save.HeaderGateIgnoresBody | lib/src/save/mod.rs:35-38 | a rejected header gives the same failure whatever the rest of the file holds |
| Save.FlagIndex | lib/src/save/mod.rs:136-147 | every save flag maps to an index below 6 |
| Save.FlagIndexInjective | lib/src/save/mod.rs:136-147 | two flags share an index exactly when they are the same flag |
| Save.IsFlagSet | lib/src/save/mod.rs:150-155 | `is_flag_set(f)` is true exactly when the value stored at `f`'s index is non-zero |
| Save.SetFlag | lib/src/save/mod.rs:157-159 | after `set_flag(f, v)`, `is_flag_set(f)` is `v`, every other flag reads as before, and nothing outside the flag store changes |
| Save.SetFlagLastWriteWins | lib/src/save/mod.rs:157-159 | of two writes to the same flag, the second decides the result |
| Save.IsDlc4 | lib/src/save/mod.rs:161-164 | `is_dlc4()` is true exactly when the value at index 4, the `Dlc4` flag, is non-zero |
| Save.PlayTimeRoundTrip | lib/src/save/mod.rs:167-174 | `from_seconds` and `to_seconds` are inverse |
| Save.ToHoursMinsSecs | lib/src/save/mod.rs:176-179 | returns `(h, m, s)` with `m < 60`, `s < 60` and `h*3600 + m*60 + s` equal to the seconds |
| Save.HoursMinsSecsUnique | lib/src/save/mod.rs:176-179 | any `(h, m, s)` with `m, s < 60` that adds up to the seconds is exactly what `to_hours_mins_secs` returns |
| Save.Year | lib/src/save/mod.rs:189-191 | `year()` is below `2^14` |
| Save.Month | lib/src/save/mod.rs:193-195 | `month()` is at most 15 |
| Save.Day | lib/src/save/mod.rs:197-199 | `day()` is at most 31 |
| Save.Hour | lib/src/save/mod.rs:201-203 | `hour()` is at most 63 |
| Save.Minute | lib/src/save/mod.rs:205-207 | `minute()` is at most 63 |
| Save.FromDateTime | lib/src/save/mod.rs:183-187 | after packing, each accessor returns its input cut to its field width (`month & 0xf`, `day & 0x1f`, `minute & 0x3f`, `hour & 0x3f`, `year & 0x3fff`), so no part spills into another; date bits 5–13 and time bits 0–19 are zero |
| Save.TimestampRoundTrip | lib/src/save/mod.rs:183-207 | inputs within the field widths come back unchanged from the accessors |
| Save.TimestampExample | lib/src/save/mod.rs:222-230 | 2023-01-02 12:28 reads back as year 2023, month 1, day 2, hour 12, minute 28 |
| Item.Discriminant | lib/src/save/item/mod.rs:71-82 | every item type's discriminant lies in 1..9 |
| Item.TryFrom | lib/src/save/item/mod.rs:229-245 | conversion succeeds exactly on 1..9 and gives the variant with that discriminant; any other value fails with `TypeFromIntError` carrying it |
| Item.TryFromDiscriminant | lib/src/save/item/mod.rs:229-245 | converting any variant's discriminant back gives that variant |
| Item.SlotLayoutFits | lib/src/save/item/mod.rs:41-51 | packing the fields by their type widths gives offsets 2, 4 and 8; the declared `amount` offset 0xc leaves no overlap; and `flags` at 0xe ends within the declared 16 bytes |
| Item.ItemSlot.IsValid | lib/src/save/item/mod.rs:182-185 | a slot is occupied exactly when bit 0 of its flag byte is set |
| Item.IsValidIgnoresOtherFlags | lib/src/save/item/mod.rs:53-62 | setting or clearing any flag bit other than Active (Favorite, New, HasCraftData) never changes `is_valid` |
| Item.SlotFlagsDistinct | lib/src/save/item/mod.rs:53-62 | the four slot flags are pairwise disjoint bits |
| Item.ItemSlot.GetItemType | lib/src/save/item/mod.rs:173-180 | `item_type()` requires an occupied slot with a tag in 1..9 and returns the variant with that discriminant |
| Item.ItemSlot.IsCraftedAccessory | lib/src/save/item/mod.rs:187-192 | true exactly when the slot is occupied, its tag is Accessory (5) and its id is the crafted-item id |
| Item.ItemSlot.SetChronologicalId | lib/src/save/item/mod.rs:203-205 | sets the chronological id and changes no other field |
| Item.AccessorySlotExample | lib/src/save/item/mod.rs:177-185 | the slot `(id 5, index 0, tag 5, chronological id 1, amount 1, flags 0x01)` is occupied, holds an Accessory and has amount 1 |
| Item.Slots | lib/src/save/item/mod.rs:89-101 | `slots(t)` fails exactly for Collectopedia; every other category gives its whole array, of length 16/300/1500/800/1500/200/16/64 |
| Item.SlotsMut | lib/src/save/item/mod.rs:103-115 | `slots_mut(t)` fails exactly for Collectopedia; a write through it is what `slots(t)` then reads, and every other category and the counter are unchanged |
| Item.SlotsDetermineInventory | lib/src/save/item/mod.rs:15-36 | an inventory is determined by its counter and its eight arrays |
| Item.SetSlot | lib/src/save/item/mod.rs:136-153 | a write through a slot location reads back, and every other slot of the inventory, in any category, is unchanged |
| Item.WritesDoNotInterfere | lib/src/save/item/mod.rs:136-153 | writes through two different locations, such as the two a split returns, each read back whichever comes first, and no other slot of the inventory changes |
| Item.Position | lib/src/save/item/mod.rs:126-135 | the scan returns the first index holding the id, or `None` exactly when no slot holds it |
| Item.SplitSlotsMut | lib/src/save/item/mod.rs:117-154 | fails, in the source's order, for an unsupported category or a missing id of `a` and then of `b`, or for one slot asked for twice; otherwise it returns the first match of `a` and of `b`, in that order, as two distinct valid locations |

## Left out

- `FixStr`: a declaration with no behaviour.
- The `SaveBin` derive macro and the byte-level reading and writing of whole
  structures, including byte order. Their code is not part of this model. The
  header is taken as already-decoded values, and `ReadSaveData` takes the
  result of reading the rest of the file as a parameter.
- The absolute offsets of the `SaveData` fields (`lib/src/save/mod.rs:40-108`)
  and the regions behind them, such as characters, menu data and DLC data.
  They are layout data with no logic. `SaveData` keeps only play time,
  timestamp, save flags and inventory.
- `Pos` and `MapTime`: plain data, and `Pos` is floating point.
- `to_iso_date`, `to_iso_time` and `lang_id`: string formatting and
  localisation keys.
- `ItemType::get_by_item_id`: a `todo!()` stub in the source. `SplitSlotsMut`
  takes it as the parameter `classify`.
- `craft_data` and `AccessoryCrafting`, `DlcManualSlot`, and `CRAFTED_ITEM_ID`.
  Their code is not part of this model. The crafted-item id is a parameter of
  `IsCraftedAccessory`.
- `BitFlags` and `AllFlags`: their code is not part of this model. The `Flags`
  module only states the get/set behaviour that the save-flag accessors rely
  on. It does not model how values are packed into bits.
- The `unsafe` raw-pointer split and the `Box` heap allocation. References
  become distinct (category, index) locations, so memory aliasing is not
  modelled.
- Integer widths: the source stores `FixVec`'s `len` as a `u64`, and the
  model uses `nat`. Neither update of `len` can wrap: `self.len += 1`
  (lib/src/util.rs:55) runs only when `len < MAX`, and `self.len -= 1`
  (lib/src/util.rs:93) only when `len >= 1`. The casts `self.len as usize`
  (lib/src/util.rs:61, 69) are taken as the identity of a 64-bit `usize`; on a
  32-bit target they would drop the high bits of a decoded `len`, and that
  truncation is not modelled.
- The webapp's settings component: user-interface code.
- Util.Set: the panic of the buffer's own bounds check, for `i >= MAX` when a
  decoded `len` is above `MAX`, is a `requires` (`i < |buf|`) instead.
- Util.Len: for a decoded `len` above `MAX`, the contract pins `len()` only to
  at least `MAX`, since `get` cannot tell such lengths apart; its exact value
  is the decoded field, which `OversizedLengthExample` shows once.
- Util.TryPop: keeps `requires v.Valid()`. With `len` above `MAX`, the
  source panics indexing `buf[len - 1]`, and that panic is not modelled.
- Item.ItemSlot.GetItemType: the source panics on an empty slot or a tag
  outside 1..9; the model makes both a `requires` instead of a panic.
- Item.ItemSlot.IsCraftedAccessory: the panic of `item_type` on an occupied
  slot with a tag outside 1..9 is a `requires` instead.
- Save.IsFlagSet: the `expect` on an index outside the flag store is a
  `requires` (`HasFlag`). The same holds for `Save.IsDlc4`, which calls it.
- Save.SetFlag: `set_flag` (lib/src/save/mod.rs:157-159) has no `expect`;
  what it does with an index outside the store is up to `BitFlags::set`,
  whose code is not part of this model. The model requires `HasFlag`, so it
  says nothing about that case.
- Item.Slots: the panic on Collectopedia is returned as
  `Err(UnsupportedItemType(Collectopedia))`. The same holds for
  `Item.SlotsMut`.
- Item.SplitSlotsMut: the panics for an unsupported category, a missing id
  and one slot requested twice are returned as errors (`UnsupportedItemType`,
  `ItemANotFound`/`ItemBNotFound`, `IndexOutOfBounds`), not as aborts.

=== FILE: flags.dfy ===
/** An abstract stand-in for the `BitFlags` store of the save-flag region.
    Its packing of values into bytes is not part of this model: the store is a
    sequence of small values addressed by a flat flag index, and only the
    get/set behaviour the save accessors rely on is stated. */
module Flags {
  import opened Wrappers

  datatype BitFlags = BitFlags(values: seq<nat>)

  /** Reads the value at `index`, or `None` past the store's capacity. */
  function Get(store: BitFlags, index: nat): (r: Option<nat>)
    ensures r.Some? <==> index < |store.values|
    ensures r.Some? ==> r.value == store.values[index]
  {
    if index < |store.values| then Some(store.values[index]) else None
  }

  /** Writes the value at `index`; every other index keeps its value. */
  function Set(store: BitFlags, index: nat, value: nat): (r: BitFlags)
    requires index < |store.values|
    ensures |r.values| == |store.values|
    ensures Get(r, index) == Some(value)
    ensures forall j :: 0 <= j < |store.values| && j != index ==> r.values[j] == store.values[j]
  {
    BitFlags(store.values[index := value])
  }
}

=== FILE: item.dfy ===
/** Inventory slots of `lib/src/save/item/mod.rs`: item categories, the
    16-byte slot record, the per-category slot arrays and the split borrow
    of two slots. */
module Item {
  import opened Wrappers

  const ITEM_ACCESSORY_MAX: nat := 1500

  /** `ItemType`, with the discriminants the enum declares. */
  datatype ItemType =
    | Cylinder | Gem | Collection | Info | Accessory
    | Collectopedia | Precious | Exchange | Extra

  /** `t as u32`. */
  function Discriminant(t: ItemType): (r: u32)
    ensures 1 <= r <= 9
  {
    match t
    case Cylinder => 1
    case Gem => 2
    case Collection => 3
    case Info => 4
    case Accessory => 5
    case Collectopedia => 6
    case Precious => 7
    case Exchange => 8
    case Extra => 9
  }

  /** The error of a failed conversion, carrying the rejected value. */
  datatype TypeFromIntError = TypeFromIntError(value: u32)

  /** `ItemType::try_from(u32)`: succeeds exactly on the nine declared
      discriminants and is their inverse; any other value is handed back
      inside the error. */
  function TryFrom(value: u32): (r: Result<ItemType, TypeFromIntError>)
    ensures r.Ok? <==> 1 <= value <= 9
    ensures r.Ok? ==> Discriminant(r.value) == value
    ensures r.Err? ==> r.error == TypeFromIntError(value)
  {
    match value
    case 1 => Ok(Cylinder)
    case 2 => Ok(Gem)
    case 3 => Ok(Collection)
    case 4 => Ok(Info)
    case 5 => Ok(Accessory)
    case 6 => Ok(Collectopedia)
    case 7 => Ok(Precious)
    case 8 => Ok(Exchange)
    case 9 => Ok(Extra)
    case _ => Err(TypeFromIntError(value))
  }

  /** Converting a variant's discriminant back yields the variant: the match
      arms of `try_from` agree with the enum's declaration. */
  lemma TryFromDiscriminant(t: ItemType)
    ensures TryFrom(Discriminant(t)) == Ok(t)
  {
  }

  // ---------------------------------------------------------------------
  // Slot flags and the slot record

  /** `SlotFlags`: the bits of a slot's flag byte. */
  const ACTIVE: bv8 := 1
  const FAVORITE: bv8 := 1 << 1
  const NEW: bv8 := 1 << 2
  const HAS_CRAFT_DATA: bv8 := 1 << 3

  /** Byte widths of the field types of a slot. */
  const U8_BYTES: nat := 1
  const U16_BYTES: nat := 2
  const U32_BYTES: nat := 4

  /** The declared 16-byte layout of a slot: each field's offset, either
      declared (`#[loc]`) or right after the previous field. */
  const SLOT_SIZE: nat := 16
  const ITEM_ID_OFFSET: nat := 0
  const SLOT_INDEX_OFFSET: nat := ITEM_ID_OFFSET + U16_BYTES
  const ITEM_TYPE_OFFSET: nat := SLOT_INDEX_OFFSET + U16_BYTES
  const CHRONOLOGICAL_ID_OFFSET: nat := ITEM_TYPE_OFFSET + U32_BYTES
  const AMOUNT_OFFSET: nat := 0xc
  const FLAGS_OFFSET: nat := AMOUNT_OFFSET + U16_BYTES

  /** The packed offsets are the ones the slot record is known by, the
      declared offset of `amount` leaves no overlap, and the last field ends
      inside the declared size. */
  lemma SlotLayoutFits()
    ensures SLOT_INDEX_OFFSET == 2 && ITEM_TYPE_OFFSET == 4
    ensures CHRONOLOGICAL_ID_OFFSET == 8 && FLAGS_OFFSET == 0xe
    ensures CHRONOLOGICAL_ID_OFFSET + U32_BYTES <= AMOUNT_OFFSET
    ensures FLAGS_OFFSET + U8_BYTES <= SLOT_SIZE
  {
  }

  /** `ItemSlot`: one inventory entry. The plain getters of the source
      (`index`, `item_id`, `amount`, `chronological_id`) are the fields. */
  datatype ItemSlot = ItemSlot(
    itemId: u16,
    slotIndex: u16,
    itemType: u32,
    chronologicalId: u32,
    amount: u16,
    flags: bv8)
  {
    /** `is_valid`: the slot holds an item exactly when bit 0 of its flag
        byte is set. */
    predicate IsValid()
      ensures IsValid() <==> (flags as int) % 2 == 1
    {
      flags & ACTIVE != 0
    }

    /** `item_type`: only defined for an occupied slot whose stored tag is a
        declared discriminant (the source panics otherwise); the result is
        the variant with that discriminant. */
    function GetItemType(): (r: ItemType)
      requires IsValid()
      requires 1 <= itemType <= 9
      ensures Discriminant(r) == itemType
    {
      TryFrom(itemType).value
    }

    /** `is_crafted_accessory`: an occupied Accessory slot holding the crafted
        item id. `craftedItemId` is the DLC module's constant, which is not
        part of this model. The tag must be a declared discriminant whenever
        the slot is occupied, as `item_type` panics otherwise. */
    predicate IsCraftedAccessory(craftedItemId: u16)
      requires IsValid() ==> 1 <= itemType <= 9
      ensures IsCraftedAccessory(craftedItemId) <==>
        IsValid() && itemType == Discriminant(Accessory) && itemId == craftedItemId
    {
      IsValid() && GetItemType() == Accessory && itemId == craftedItemId
    }

    /** `set_chronological_id`: changes that one field only. */
    function SetChronologicalId(id: u32): (r: ItemSlot)
      ensures r.chronologicalId == id
      ensures r.(chronologicalId := chronologicalId) == this
    {
      this.(chronologicalId := id)
    }
  }

  /** Setting or clearing any flag bit other than Active (Favorite, New,
      HasCraftData or an undeclared bit) never changes `is_valid`. */
  lemma IsValidIgnoresOtherFlags(s: ItemSlot, mask: bv8)
    requires mask & ACTIVE == 0
    ensures s.(flags := s.flags | mask).IsValid() == s.IsValid()
    ensures s.(flags := s.flags & !mask).IsValid() == s.IsValid()
  {
  }

  /** The declared flag bits are distinct single bits, none of them Active
      except Active itself. */
  lemma SlotFlagsDistinct()
    ensures FAVORITE & ACTIVE == 0 && NEW & ACTIVE == 0 && HAS_CRAFT_DATA & ACTIVE == 0
    ensures FAVORITE & NEW == 0 && FAVORITE & HAS_CRAFT_DATA == 0 && NEW & HAS_CRAFT_DATA == 0
  {
  }

  /** The slot record `[item_id 5, slot_index 0, item_type 5,
      chronological_id 1, amount 1, flags 0x01]` is an occupied Accessory
      slot holding one item. */
  lemma AccessorySlotExample()
    ensures var s := ItemSlot(5, 0, 5, 1, 1, 0x01);
      s.IsValid() && s.GetItemType() == Accessory && s.amount == 1
  {
  }

  // ---------------------------------------------------------------------
  // The inventory

  /** `Inventory`: the chronological id counter, then one fixed-size slot
      array per supported category (Collectopedia has none). */
  datatype Inventory = Inventory(
    chronologicalIdMax: u32,
    cylinders: seq<ItemSlot>,
    gems: seq<ItemSlot>,
    collectibles: seq<ItemSlot>,
    infos: seq<ItemSlot>,
    accessories: seq<ItemSlot>,
    keyItems: seq<ItemSlot>,
    exchange: seq<ItemSlot>,
    extra: seq<ItemSlot>)
  {
    /** Every array has the length its `Box<[ItemSlot; N]>` declares. */
    predicate Valid() {
      && |cylinders| == 16
      && |gems| == 300
      && |collectibles| == 1500
      && |infos| == 800
      && |accessories| == ITEM_ACCESSORY_MAX
      && |keyItems| == 200
      && |exchange| == 16
      && |extra| == 64
    }
  }

  /** The declared number of slots of each category that has an array. */
  function SlotCount(t: ItemType): (n: nat)
    requires t != Collectopedia
  {
    match t
    case Cylinder => 16
    case Gem => 300
    case Collection => 1500
    case Info => 800
    case Accessory => ITEM_ACCESSORY_MAX
    case Precious => 200
    case Exchange => 16
    case Extra => 64
  }

  /** What the slot accessors can fail with. The source panics in each case;
      here each becomes an error value. */
  datatype InventoryError =
    | UnsupportedItemType(itemType: ItemType)
    | ItemANotFound
    | ItemBNotFound
    | IndexOutOfBounds

  /** `slots`: the whole array of a category, inactive slots included.
      Collectopedia has no array and is rejected. */
  function Slots(inv: Inventory, t: ItemType): (r: Result<seq<ItemSlot>, InventoryError>)
    ensures r.Err? <==> t == Collectopedia
    ensures r.Err? ==> r.error == UnsupportedItemType(t)
    ensures inv.Valid() && r.Ok? ==> |r.value| == SlotCount(t)
  {
    match t
    case Cylinder => Ok(inv.cylinders)
    case Gem => Ok(inv.gems)
    case Collection => Ok(inv.collectibles)
    case Info => Ok(inv.infos)
    case Accessory => Ok(inv.accessories)
    case Precious => Ok(inv.keyItems)
    case Exchange => Ok(inv.exchange)
    case Extra => Ok(inv.extra)
    case Collectopedia => Err(UnsupportedItemType(t))
  }

  /** `slots_mut`, as a write of new contents through the mutable view: it
      selects the same array `slots` reads, and leaves every other array and
      the chronological id counter as they were. A slice cannot change
      length, so the new contents have the array's length. */
  function SlotsMut(inv: Inventory, t: ItemType, update: seq<ItemSlot>): (r: Result<Inventory, InventoryError>)
    requires inv.Valid()
    requires t != Collectopedia ==> |update| == SlotCount(t)
    ensures r.Err? <==> t == Collectopedia
    ensures r.Err? ==> r.error == UnsupportedItemType(t)
    ensures r.Ok? ==> r.value.Valid()
    ensures r.Ok? ==> Slots(r.value, t) == Ok(update)
    ensures r.Ok? ==> forall u :: u != t ==> Slots(r.value, u) == Slots(inv, u)
    ensures r.Ok? ==> r.value.chronologicalIdMax == inv.chronologicalIdMax
  {
    match t
    case Cylinder => Ok(inv.(cylinders := update))
    case Gem => Ok(inv.(gems := update))
    case Collection => Ok(inv.(collectibles := update))
    case Info => Ok(inv.(infos := update))
    case Accessory => Ok(inv.(accessories := update))
    case Precious => Ok(inv.(keyItems := update))
    case Exchange => Ok(inv.(exchange := update))
    case Extra => Ok(inv.(extra := update))
    case Collectopedia => Err(UnsupportedItemType(t))
  }

  /** Two inventories with the same counter and the same array for every
      category are the same inventory. */
  lemma SlotsDetermineInventory(i1: Inventory, i2: Inventory)
    requires i1.chronologicalIdMax == i2.chronologicalIdMax
    requires forall t :: Slots(i1, t) == Slots(i2, t)
    ensures i1 == i2
  {
    assert Slots(i1, Cylinder) == Slots(i2, Cylinder);
    assert Slots(i1, Gem) == Slots(i2, Gem);
    assert Slots(i1, Collection) == Slots(i2, Collection);
    assert Slots(i1, Info) == Slots(i2, Info);
    assert Slots(i1, Accessory) == Slots(i2, Accessory);
    assert Slots(i1, Precious) == Slots(i2, Precious);
    assert Slots(i1, Exchange) == Slots(i2, Exchange);
    assert Slots(i1, Extra) == Slots(i2, Extra);
  }

  // ---------------------------------------------------------------------
  // Slot locations and the split borrow

  /** A slot location: a category's array and an index into it. This stands
      for the `&mut ItemSlot` the split hands out. */
  datatype Loc = Loc(itemType: ItemType, index: nat)

  /** The location names an existing slot. */
  predicate ValidLoc(inv: Inventory, loc: Loc) {
    Slots(inv, loc.itemType).Ok? && loc.index < |Slots(inv, loc.itemType).value|
  }

  /** Reads the slot at a location. */
  function GetSlot(inv: Inventory, loc: Loc): (s: ItemSlot)
    requires ValidLoc(inv, loc)
  {
    Slots(inv, loc.itemType).value[loc.index]
  }

  /** Writes a slot through a location: the written slot reads back, and
      every other slot of the inventory, in any category, is unchanged. */
  function SetSlot(inv: Inventory, loc: Loc, s: ItemSlot): (r: Inventory)
    requires inv.Valid()
    requires ValidLoc(inv, loc)
    ensures r.Valid()
    ensures r.chronologicalIdMax == inv.chronologicalIdMax
    ensures ValidLoc(r, loc) && GetSlot(r, loc) == s
    ensures forall l :: ValidLoc(inv, l) <==> ValidLoc(r, l)
    ensures forall l :: ValidLoc(inv, l) && l != loc ==> GetSlot(r, l) == GetSlot(inv, l)
  {
    var slots := Slots(inv, loc.itemType).value;
    SlotsMut(inv, loc.itemType, slots[loc.index := s]).value
  }

  /** Writes through two different locations, such as the two a successful
      `SplitSlotsMut` returns, do not interfere: each reads back what was
      written through it, whichever write comes first, and no other slot of
      the inventory changes. */
  lemma WritesDoNotInterfere(inv: Inventory, a: Loc, b: Loc, x: ItemSlot, y: ItemSlot)
    requires inv.Valid()
    requires ValidLoc(inv, a) && ValidLoc(inv, b) && a != b
    ensures var ab := SetSlot(SetSlot(inv, a, x), b, y);
      && GetSlot(ab, a) == x && GetSlot(ab, b) == y
      && forall l :: ValidLoc(inv, l) && l != a && l != b ==> GetSlot(ab, l) == GetSlot(inv, l)
    ensures SetSlot(SetSlot(inv, a, x), b, y) == SetSlot(SetSlot(inv, b, y), a, x)
  {
  }

  /** The mutable slice `slots_mut(t)` hands out for an array of length
      `n`, as the locations it covers. */
  function View(t: ItemType, n: nat): (r: seq<Loc>)
    ensures |r| == n
    ensures forall i :: 0 <= i < n ==> r[i] == Loc(t, i)
  {
    seq(n, i requires 0 <= i => Loc(t, i))
  }

  /** Bounds-checked indexing into a view; out of range is a panic in the
      source. */
  function At(view: seq<Loc>, i: nat): (r: Result<Loc, InventoryError>)
    ensures r.Ok? <==> i < |view|
    ensures r.Ok? ==> r.value == view[i]
    ensures r.Err? ==> r.error == IndexOutOfBounds
  {
    if i < |view| then Ok(view[i]) else Err(IndexOutOfBounds)
  }

  /** The slot at `i` is the first one holding `id`. */
  predicate IsFirstMatch(slots: seq<ItemSlot>, id: u16, i: nat) {
    && i < |slots|
    && slots[i].itemId == id
    && forall j :: 0 <= j < i ==> slots[j].itemId != id
  }

  /** Some slot holds `id`. */
  predicate Holds(slots: seq<ItemSlot>, id: u16) {
    exists i :: 0 <= i < |slots| && slots[i].itemId == id
  }

  /** `slots.iter().position(|s| s.item_id() == id)`: the first index
      holding `id`, or `None` when no slot holds it. */
  method Position(slots: seq<ItemSlot>, id: u16) returns (r: Option<nat>)
    ensures r.None? <==> !Holds(slots, id)
    ensures r.Some? ==> IsFirstMatch(slots, id, r.value)
  {
    var i := 0;
    while i < |slots|
      invariant i <= |slots|
      invariant forall j :: 0 <= j < i ==> slots[j].itemId != id
    {
      if slots[i].itemId == id {
        return Some(i);
      }
      i := i + 1;
    }
    return None;
  }

  /** The item `id` is present in the array of the category `classify`
      assigns it, and `loc` is its first occurrence there. */
  predicate Locates(inv: Inventory, classify: u16 -> ItemType, id: u16, loc: Loc) {
    && loc.itemType == classify(id)
    && Slots(inv, loc.itemType).Ok?
    && IsFirstMatch(Slots(inv, loc.itemType).value, id, loc.index)
  }

  /** The item `id` is present in the array of the category `classify`
      assigns it. */
  predicate Found(inv: Inventory, classify: u16 -> ItemType, id: u16) {
    Slots(inv, classify(id)).Ok? && Holds(Slots(inv, classify(id)).value, id)
  }

  /** `split_slots_mut`: locates `idA` and `idB` in the arrays of the
      categories `classify` (the game's item-id table, `get_by_item_id`)
      assigns them, by first-match scan, and hands back their two locations
      in that order. In one category the array is split at the larger index
      (`split_at_mut`), so the two come from disjoint halves; in two
      categories they come from two different arrays. The failures occur in
      the source's order: category of `idA`, then `idA` itself, then the
      category of `idB`, then `idB`, and finally the same slot requested
      twice, which indexes past the lower half. */
  method SplitSlotsMut(inv: Inventory, classify: u16 -> ItemType, idA: u16, idB: u16)
    returns (r: Result<(Loc, Loc), InventoryError>)
    requires inv.Valid()
    ensures classify(idA) == Collectopedia ==> r == Err(UnsupportedItemType(Collectopedia))
    ensures classify(idA) != Collectopedia && !Found(inv, classify, idA) ==> r == Err(ItemANotFound)
    ensures Found(inv, classify, idA) && classify(idB) == Collectopedia ==>
      r == Err(UnsupportedItemType(Collectopedia))
    ensures Found(inv, classify, idA) && classify(idB) != Collectopedia && !Found(inv, classify, idB) ==>
      r == Err(ItemBNotFound)
    ensures Found(inv, classify, idA) && idA == idB ==> r == Err(IndexOutOfBounds)
    ensures r.Ok? <==> Found(inv, classify, idA) && Found(inv, classify, idB) && idA != idB
    ensures r.Ok? ==> var (a, b) := r.value;
      && Locates(inv, classify, idA, a)
      && Locates(inv, classify, idB, b)
      && ValidLoc(inv, a) && ValidLoc(inv, b)
      && a != b
  {
    var tyA, tyB := classify(idA), classify(idB);
    var slotsA :- Slots(inv, tyA);
    var posA := Position(slotsA, idA);
    if posA.None? {
      return Err(ItemANotFound);
    }
    var slotsB :- Slots(inv, tyB);
    var posB := Position(slotsB, idB);
    if posB.None? {
      return Err(ItemBNotFound);
    }
    var idxA, idxB := posA.value, posB.value;
    if tyA == tyB {
      var slots := View(tyA, |slotsA|);
      if idxA > idxB {
        var beforeA, afterA := slots[..idxA], slots[idxA..];
        var a, b := At(afterA, 0), At(beforeA, idxB);
        r := Ok((a.value, b.value));
      } else {
        var beforeB, afterB := slots[..idxB], slots[idxB..];
        var a :- At(beforeB, idxA);
        var b := At(afterB, 0);
        r := Ok((a, b.value));
      }
    } else {
      var viewA, viewB := View(tyA, |slotsA|), View(tyB, |slotsB|);
      var a, b := At(viewA, idxA), At(viewB, idxB);
      r := Ok((a.value, b.value));
    }
  }
}

=== FILE: save.dfy ===
/** The save-data aggregate of `lib/src/save/mod.rs`: the header gate, the
    named save flags, play time and the packed save timestamp. */
module Save {
  import opened Wrappers
  import Flags
  import Item

  // ---------------------------------------------------------------------
  // Header gate

  /** The only format version this library reads. */
  const SAVE_VERSION: bv8 := 10

  /** The constant the first field of every save file must hold. */
  const SAVE_MAGIC: bv32 := 0xb368fa6a

  /** The two assertion fields at the start of the file, already decoded. */
  datatype Header = Header(magic: bv32, version: bv8)

  /** Decode failures of the header: an unrecognised file, or a recognised
      file of another format version (carrying the version found). */
  datatype SaveError = BadMagic(magic: bv32) | UnsupportedVersion(version: bv8)

  /** The assertion fields, checked in declaration order: the magic first,
      then the version. */
  function CheckHeader(h: Header): (r: Result<(), SaveError>)
    ensures r.Ok? <==> h == Header(SAVE_MAGIC, SAVE_VERSION)
    ensures h.magic != SAVE_MAGIC ==> r == Err(BadMagic(h.magic))
    ensures h.magic == SAVE_MAGIC && h.version != SAVE_VERSION ==> r == Err(UnsupportedVersion(h.version))
  {
    if h.magic != SAVE_MAGIC then Err(BadMagic(h.magic))
    else if h.version != SAVE_VERSION then Err(UnsupportedVersion(h.version))
    else Ok(())
  }

  /** Reading a whole save: the header is checked first and, when it fails,
      nothing else is read, so the outcome of reading the remaining regions
      (`rest`, produced by code outside this model) never matters. No partial
      aggregate is returned. */
  function ReadSaveData(h: Header, rest: Result<SaveData, SaveError>): (r: Result<SaveData, SaveError>)
    ensures r.Ok? ==> h == Header(SAVE_MAGIC, SAVE_VERSION) && r == rest
    ensures CheckHeader(h).Err? ==> r == Err(CheckHeader(h).error)
    ensures CheckHeader(h).Ok? ==> r == rest
  {
    var _ :- CheckHeader(h);
    rest
  }

  /** The header gate decides alone: with a rejected header, any two bodies
      give the same failure, and a correct magic with a wrong version always
      reports that exact version byte. */
  lemma HeaderGateIgnoresBody(h: Header, rest1: Result<SaveData, SaveError>, rest2: Result<SaveData, SaveError>)
    requires h != Header(SAVE_MAGIC, SAVE_VERSION)
    ensures ReadSaveData(h, rest1) == ReadSaveData(h, rest2)
    ensures h.magic == SAVE_MAGIC ==> ReadSaveData(h, rest1) == Err(UnsupportedVersion(h.version))
    ensures h.magic != SAVE_MAGIC ==> ReadSaveData(h, rest1) == Err(BadMagic(h.magic))
  {
  }

  // ---------------------------------------------------------------------
  // Named save flags

  /** `SaveFlag`. */
  datatype SaveFlag = TimeLocked | WeatherLocked | AboardShip | Intermission | Dlc4 | Gauntlet

  /** `flag as usize`: the flag's index in the save-flag store. */
  function FlagIndex(f: SaveFlag): (r: nat)
    ensures r < 6
  {
    match f
    case TimeLocked => 0
    case WeatherLocked => 1
    case AboardShip => 2
    case Intermission => 3
    case Dlc4 => 4
    case Gauntlet => 5
  }

  /** Distinct flags use distinct indices. */
  lemma FlagIndexInjective(f: SaveFlag, g: SaveFlag)
    ensures FlagIndex(f) == FlagIndex(g) <==> f == g
  {
  }

  /** The part of `SaveData` this model covers; the other regions of the
      file are not part of it. */
  datatype SaveData = SaveData(
    playTime: PlayTime,
    timestamp: SaveTimestamp,
    saveFlags: Flags.BitFlags,
    inventory: Item.Inventory)

  /** The flag's index lies inside the store (the source's `expect` turns
      anything else into a panic). */
  predicate HasFlag(sd: SaveData, f: SaveFlag) {
    FlagIndex(f) < |sd.saveFlags.values|
  }

  /** `is_flag_set`: the value at the flag's index is non-zero. */
  function IsFlagSet(sd: SaveData, f: SaveFlag): (r: bool)
    requires HasFlag(sd, f)
    ensures r <==> sd.saveFlags.values[FlagIndex(f)] != 0
  {
    Flags.Get(sd.saveFlags, FlagIndex(f)).value != 0
  }

  /** `set_flag`: stores 1 or 0 at the flag's index. The flag then reads back
      as `value`, every other flag reads as before and nothing outside the
      flag store changes. */
  function SetFlag(sd: SaveData, f: SaveFlag, value: bool): (r: SaveData)
    requires HasFlag(sd, f)
    ensures |r.saveFlags.values| == |sd.saveFlags.values|
    ensures IsFlagSet(r, f) == value
    ensures forall g :: g != f && HasFlag(sd, g) ==> IsFlagSet(r, g) == IsFlagSet(sd, g)
    ensures r.(saveFlags := sd.saveFlags) == sd
  {
    sd.(saveFlags := Flags.Set(sd.saveFlags, FlagIndex(f), if value then 1 else 0))
  }

  /** Of two writes to the same flag, the second wins. */
  lemma SetFlagLastWriteWins(sd: SaveData, f: SaveFlag, a: bool, b: bool)
    requires HasFlag(sd, f)
    ensures SetFlag(SetFlag(sd, f, a), f, b) == SetFlag(sd, f, b)
  {
  }

  /** `is_dlc4`: whether the save belongs to the Future Redeemed story, read
      from index 4 of the store. */
  function IsDlc4(sd: SaveData): (r: bool)
    requires HasFlag(sd, Dlc4)
    ensures r <==> sd.saveFlags.values[4] != 0
  {
    IsFlagSet(sd, Dlc4)
  }

  // ---------------------------------------------------------------------
  // Play time

  /** `PlayTime`: a count of seconds. */
  datatype PlayTime = PlayTime(raw: u32)

  function FromSeconds(seconds: u32): (p: PlayTime) {
    PlayTime(seconds)
  }

  function ToSeconds(p: PlayTime): (seconds: u32) {
    p.raw
  }

  /** `from_seconds` and `to_seconds` are inverse. */
  lemma PlayTimeRoundTrip(seconds: u32, p: PlayTime)
    ensures ToSeconds(FromSeconds(seconds)) == seconds
    ensures FromSeconds(ToSeconds(p)) == p
  {
  }

  /** `to_hours_mins_secs`: whole hours, then the minutes and seconds of the
      rest, which add back up to the total. */
  function ToHoursMinsSecs(p: PlayTime): (r: (u32, u32, u32))
    ensures r.1 < 60 && r.2 < 60
    ensures r.0 as int * 3600 + r.1 as int * 60 + r.2 as int == ToSeconds(p) as int
  {
    var secs := ToSeconds(p);
    (secs / 3600, secs % 3600 / 60, secs % 3600 % 60)
  }

  /** The split into hours, minutes and seconds is the only one with
      minutes and seconds below 60. */
  lemma HoursMinsSecsUnique(p: PlayTime, h: u32, m: u32, s: u32)
    requires m < 60 && s < 60
    requires h as int * 3600 + m as int * 60 + s as int == p.raw as int
    ensures ToHoursMinsSecs(p) == (h, m, s)
  {
  }

  // ---------------------------------------------------------------------
  // Save timestamp

  /** `SaveTimestamp`: the date packed as year (bits 18..31), month (bits
      14..17) and day (bits 0..4); the time as hour (bits 26..31) and minute
      (bits 20..25). */
  datatype SaveTimestamp = SaveTimestamp(time: bv32, date: bv32)

  /** `year`. */
  function Year(ts: SaveTimestamp): (r: bv32)
    ensures r < 1 << 14
  {
    ts.date >> 0x12
  }

  /** `month`. */
  function Month(ts: SaveTimestamp): (r: bv8)
    ensures r <= 15
  {
    ((ts.date >> 0xe) & 0xf) as bv8
  }

  /** `day`. */
  function Day(ts: SaveTimestamp): (r: bv8)
    ensures r <= 31
  {
    (ts.date & 0x1f) as bv8
  }

  /** `hour`. */
  function Hour(ts: SaveTimestamp): (r: bv8)
    ensures r <= 63
  {
    (ts.time >> 0x1a) as bv8
  }

  /** `minute`. */
  function Minute(ts: SaveTimestamp): (r: bv8)
    ensures r <= 63
  {
    ((ts.time >> 0x14) & 0x3f) as bv8
  }

  /** `from_date_time`: packs the five parts. Each accessor reads back its
      part cut to its field's width, so an oversized part never spills into
      a neighbouring field, and the unused bits stay zero. */
  function FromDateTime(year: bv32, month: bv8, day: bv8, hour: bv8, minute: bv8): (ts: SaveTimestamp)
    ensures Year(ts) == year & 0x3fff
    ensures Month(ts) == month & 0xf
    ensures Day(ts) == day & 0x1f
    ensures Hour(ts) == hour & 0x3f
    ensures Minute(ts) == minute & 0x3f
    ensures ts.date & 0x3fe0 == 0
    ensures ts.time & 0xfffff == 0
  {
    var date := (year << 0x12) | ((month as bv32 & 0xf) << 0xe) | (day as bv32 & 0x1f);
    var time := (hour as bv32 << 0x1a) | ((minute as bv32 & 0x3f) << 0x14);
    SaveTimestamp(time, date)
  }

  /** Within the field widths, packing then reading gives back the inputs. */
  lemma TimestampRoundTrip(year: bv32, month: bv8, day: bv8, hour: bv8, minute: bv8)
    requires year < 1 << 14 && month < 16 && day < 32 && hour < 64 && minute < 64
    ensures var ts := FromDateTime(year, month, day, hour, minute);
      && Year(ts) == year && Month(ts) == month && Day(ts) == day
      && Hour(ts) == hour && Minute(ts) == minute
  {
  }

  /** 2023-01-02 12:28 survives packing. */
  lemma TimestampExample()
    ensures var ts := FromDateTime(2023, 1, 2, 12, 28);
      Year(ts) == 2023 && Month(ts) == 1 && Day(ts) == 2 && Hour(ts) == 12 && Minute(ts) == 28
  {
  }
}

=== FILE: util.dfy ===
/** The fixed-capacity vector of `lib/src/util.rs`. */
module Util {
  import opened Wrappers

  /** The vector has reached its maximum or minimum length. */
  datatype CapacityError = CapacityError

  /** A dynamic array with fixed capacity: the backing buffer always holds
      exactly `MAX` elements (so `MAX` is `|buf|`), and only the first `len`
      of them are logically present. */
  datatype FixVec<T> = FixVec(buf: seq<T>, len: nat) {

    /** The representation invariant the Rust code relies on: `len <= MAX`. */
    predicate Valid() {
      len <= |buf|
    }

    /** The logical contents: the elements `iter` yields, in order. */
    function Items(): (r: seq<T>)
      requires Valid()
      ensures |r| == len
      ensures forall i :: 0 <= i < len ==> Get(this, i) == Some(r[i])
    {
      buf[..len]
    }
  }

  /** `get`: `None` at or past `len`, whatever the buffer physically holds
      there; below `len` the buffer's own bounds check decides, so a decoded
      `len` above `MAX` still finds nothing past the buffer. */
  function Get<T>(v: FixVec<T>, i: nat): (r: Option<T>)
    ensures i >= v.len ==> r == None
    ensures i >= |v.buf| ==> r == None
    ensures i < v.len && i < |v.buf| ==> r == Some(v.buf[i])
  {
    if i >= v.len then None
    else if i < |v.buf| then Some(v.buf[i])
    else None
  }

  /** `set`: replaces one present element. An index at or past `len` fails
      the source's assertion, and one at or past `MAX` its buffer indexing;
      both are panics, hence preconditions here. */
  function Set<T>(v: FixVec<T>, i: nat, x: T): (r: FixVec<T>)
    requires i < v.len && i < |v.buf|
    ensures r.len == v.len && |r.buf| == |v.buf|
    ensures r.Valid() <==> v.Valid()
    ensures Get(r, i) == Some(x)
    ensures forall j :: 0 <= j < |v.buf| && j != i ==> r.buf[j] == v.buf[j]
  {
    v.(buf := v.buf[i := x])
  }

  /** `try_push`: fails at or past capacity without touching the vector,
      otherwise writes the value at physical index `len` and grows `len` by
      one. The `>=` test also rejects a decoded `len` above `MAX`. */
  function TryPush<T>(v: FixVec<T>, x: T): (r: Result<FixVec<T>, CapacityError>)
    ensures v.len >= |v.buf| <==> r.Err?
    ensures r.Ok? ==> r.value.Valid() && |r.value.buf| == |v.buf|
    ensures r.Ok? ==> r.value.len == v.len + 1 && r.value.buf[v.len] == x
    ensures r.Ok? ==> forall j :: 0 <= j < |v.buf| && j != v.len ==> r.value.buf[j] == v.buf[j]
  {
    if v.len >= |v.buf| then Err(CapacityError)
    else Ok(FixVec(v.buf[v.len := x], v.len + 1))
  }

  /** `try_pop`: fails on an empty vector without touching it, otherwise
      takes the last present element, leaving `dflt` (the element type's
      `Default`) in its backing slot, and shrinks `len` by one. */
  function TryPop<T>(v: FixVec<T>, dflt: T): (r: Result<(FixVec<T>, T), CapacityError>)
    requires v.Valid()
    ensures v.len == 0 <==> r.Err?
    ensures r.Ok? ==> var (w, x) := r.value;
      && w.Valid() && |w.buf| == |v.buf|
      && w.len == v.len - 1
      && x == v.buf[v.len - 1]
      && w.buf[w.len] == dflt
      && forall j :: 0 <= j < |v.buf| && j != w.len ==> w.buf[j] == v.buf[j]
  {
    if v.len == 0 then Err(CapacityError)
    else
      var last := v.len - 1;
      Ok((FixVec(v.buf[last := dflt], last), v.buf[last]))
  }

  /** `len`: the number of present elements. For any decoded `len`, `get`
      finds nothing at or past it, and below it `get` finds exactly the
      indices inside the buffer. */
  function Len<T>(v: FixVec<T>): (r: nat)
    ensures v.Valid() ==> r == |v.Items()|
    ensures forall i: nat :: i >= r ==> Get(v, i) == None
    ensures forall i: nat :: i < r ==> (Get(v, i).Some? <==> i < |v.buf|)
  {
    v.len
  }

  /** `is_empty`: true exactly when nothing is present. */
  function IsEmpty<T>(v: FixVec<T>): (r: bool)
    ensures v.Valid() ==> (r <==> v.Items() == [])
    ensures r ==> forall i: nat :: Get(v, i) == None
    ensures !v.Valid() ==> !r
  {
    Len(v) == 0
  }

  /** `clear`: forgets every element without touching the buffer. */
  function Clear<T>(v: FixVec<T>): (r: FixVec<T>)
    ensures r.Valid() && r.Items() == []
    ensures r.buf == v.buf
  {
    v.(len := 0)
  }

  /** `capacity`: the constant `MAX`, which is the backing buffer's length. */
  function Capacity<T>(v: FixVec<T>): (r: nat)
    ensures v.Valid() ==> Len(v) <= r
    ensures r == |v.buf|
  {
    |v.buf|
  }

  /** `iter`: walks the backing buffer and stops after `len` elements
      (`buf.iter().take(len)`), collecting what it yields; a `len` above
      `MAX` stops at the buffer's end instead. */
  method Iter<T>(v: FixVec<T>) returns (items: seq<T>)
    ensures |items| == if v.len <= |v.buf| then v.len else |v.buf|
    ensures forall i :: 0 <= i < |items| ==> Get(v, i) == Some(items[i])
    ensures v.Valid() ==> items == v.Items()
  {
    items := [];
    var i := 0;
    while i < |v.buf| && i < v.len
      invariant i <= v.len && i <= |v.buf|
      invariant |items| == i
      invariant forall k :: 0 <= k < i ==> items[k] == v.buf[k]
    {
      items := items + [v.buf[i]];
      i := i + 1;
    }
  }

  /** Setting replaces exactly one element of the logical contents. */
  lemma SetReplaces<T>(v: FixVec<T>, i: nat, x: T)
    requires v.Valid() && i < v.len
    ensures Set(v, i, x).Items() == v.Items()[i := x]
  {
  }

  /** A decoded length above `MAX` (nothing in the decoder rules it out):
      `get` still reads the buffer below `MAX` and finds nothing past it,
      `try_push` refuses, and `len` exceeds `capacity`. */
  lemma OversizedLength<T>(v: FixVec<T>, x: T, i: nat)
    requires v.len > |v.buf|
    ensures !v.Valid() && Len(v) > Capacity(v) && !IsEmpty(v)
    ensures TryPush(v, x) == Err(CapacityError)
    ensures i < |v.buf| ==> Get(v, i) == Some(v.buf[i])
    ensures i >= |v.buf| ==> Get(v, i) == None
  {
  }

  /** `FixVec([1, 2], 5)`: an oversized length over a two-element buffer. */
  lemma OversizedLengthExample()
    ensures var v := FixVec([1, 2], 5);
      && Get(v, 1) == Some(2) && Get(v, 3) == None
      && TryPush(v, 3) == Err(CapacityError)
      && Capacity(v) == 2 && Len(v) == 5
  {
  }

  /** Pushing appends exactly the pushed value to the logical contents. */
  lemma PushAppends<T>(v: FixVec<T>, x: T)
    requires v.Valid() && v.len < |v.buf|
    ensures TryPush(v, x).Ok?
    ensures TryPush(v, x).value.Items() == v.Items() + [x]
  {
  }

  /** Popping removes exactly the last present element from the logical
      contents and hands it back. */
  lemma PopRemovesLast<T>(v: FixVec<T>, dflt: T)
    requires v.Valid() && v.len > 0
    ensures TryPop(v, dflt).Ok?
    ensures TryPop(v, dflt).value.0.Items() + [TryPop(v, dflt).value.1] == v.Items()
  {
  }

  /** Push then pop returns the pushed value and restores the length and the
      logical contents; only the vacated backing slot now holds `dflt`. */
  lemma PushPopRoundTrip<T>(v: FixVec<T>, x: T, dflt: T)
    requires v.Valid() && v.len < |v.buf|
    ensures TryPush(v, x).Ok?
    ensures var w := TryPush(v, x).value;
      && TryPop(w, dflt).Ok?
      && TryPop(w, dflt).value.1 == x
      && TryPop(w, dflt).value.0.len == v.len
      && TryPop(w, dflt).value.0.Items() == v.Items()
      && TryPop(w, dflt).value.0.buf == v.buf[v.len := dflt]
  {
  }

  /** The capacity scenario for `MAX = 4`: four pushes succeed, a fifth
      fails, and after one pop the length is 3 and a push succeeds again. */
  lemma CapacityScenario()
    ensures var v0 := FixVec([0, 0, 0, 0], 0);
      && TryPush(v0, 10).Ok?
      && TryPush(TryPush(v0, 10).value, 11).Ok?
      && TryPush(TryPush(TryPush(v0, 10).value, 11).value, 12).Ok?
      && var v3 := TryPush(TryPush(TryPush(v0, 10).value, 11).value, 12).value;
      && TryPush(v3, 13).Ok?
      && var v4 := TryPush(v3, 13).value;
      && TryPush(v4, 14) == Err(CapacityError)
      && TryPop(v4, 0).Ok?
      && TryPop(v4, 0).value.0.len == 3
      && TryPush(TryPop(v4, 0).value.0, 14).Ok?
      && Get(v4, 3) == Some(13) && Get(TryPop(v4, 0).value.0, 3) == None
  {
  }
}

=== FILE: wrappers.dfy ===
/** Option and Result in the shape the library's Rust code uses them, plus the
    fixed-width unsigned integers that appear in the save layout. */
module Wrappers {

  /** `Option<T>`: a value that may be absent. */
  datatype Option<+T> = None | Some(value: T)

  /** `Result<T, E>`: success carrying a value, or failure carrying an error.
      Failure-compatible, so `:-` propagates an `Err`. */
  datatype Result<+T, +E> = Ok(value: T) | Err(error: E) {

    predicate IsFailure() {
      Err?
    }

    function PropagateFailure<U>(): Result<U, E>
      requires Err?
    {
      Err(error)
    }

    function Extract(): T
      requires Ok?
    {
      value
    }
  }

  /** Rust's `u16`. */
  newtype u16 = x: int | 0 <= x < 0x1_0000

  /** Rust's `u32`. */
  newtype u32 = x: int | 0 <= x < 0x1_0000_0000
}
